=== FILE: README.md ===
# Endorsements retriever of the Bot Connector, in Dafny

This project models `EndorsementsRetriever`, the part of the Bot Framework
Connector that finds out which channels each signing key may speak for.
It has two operations:

- `GetDocument` (`GetDocumentAsync`): check the address, fetch the OpenID
  Connect discovery document, read its `jwks_uri` property (the
  `JsonWebKeySetUri` constant), fetch the JSON Web Key Set at that URL and
  return its body verbatim. A discovery document with no properties, or with
  no `jwks_uri`, yields the empty string after one fetch.
- `GetConfiguration` (`GetConfigurationAsync`): check the address and the
  document retriever, retrieve the key set document once, parse it, and fold
  its `keys` array into a map from `keyid` to that key's `endorsements`
  strings. A record with no `keyid`, a `keyid` already in the map, or no
  `endorsements` adds nothing. Otherwise the first record wins.

The HTTP client is a parameter `fetch: string -> Result<Response, Exception>`.
The JSON text grammar is a parameter `parse: string -> Option<Token>`.
Every operation returns a `Traced` record: its outcome, plus the addresses
it requested, in order. .NET exceptions are `Failure` values of `Exception`.
A failure propagates unchanged.

Modules:

- `Wrappers`: `Option` and `Result`.
- `Exceptions`: one constructor per exception class that can escape.
- `Json`: the Json.NET `JToken` tree and the operations the retriever uses
  on it: the indexer, `Value<string>()`, `Value<JArray>()`,
  `Values<string>()` and `JObject.Parse`.
- `Http`: a response and `EnsureSuccessStatusCode`.
- `EndorsementsRetriever`: the two operations and the loop step.
- `EndorsementIndexSpec`: a declarative description of the index and the
  lemmas that prove the loop builds exactly it. The description covers
  first contributors, raising records and the exception raised.
- `RetrieverComposition`: the two operations composed, plus a worked
  example with one provider.

The code is stricter than a defensive reading of its purpose suggests, and the model follows the code:

- An unparsable document is an error (`JsonReader`) at both parse sites.
  It is not an empty result.
- The composition follows from that. A discovery document without `jwks_uri`
  makes `GetDocument` return `""`, and `GetConfiguration` then fails to
  parse `""`. It does not return an empty index
  (`MissingKeySetFailsConfiguration`).
- A `keys` property that is JSON null gives the empty map. Any other
  non-array `keys` raises `InvalidCast`.
- `keyid` and `jwks_uri` are read with Json.NET's string conversion. A
  boolean, a floating-point number, or an integer that fits in a `long`
  becomes its text. An integer outside the `long` range is a `BigInteger`,
  which raises `InvalidCast`, as an array or object does. A JSON null
  counts as missing. Endorsement elements are converted the same way.
- Only a null address is rejected. An empty address, or an empty `jwks_uri`
  string, is handed to the HTTP client.
- Any `endorsements` token that is present is converted, JSON null included.
  A primitive value raises `InvalidOperation`. An empty object gives no
  strings. A non-empty object raises `InvalidCast`. Inside an array, a JSON
  null becomes a null entry, and a nested array or object raises
  `InvalidCast`.
- A record that is not an object raises when it is indexed. For an array
  that is `InvalidArgument`. For a primitive value it is `InvalidOperation`.

## Model

| member | source | states |
|---|---|---|
| `Json.ParseObject` | libraries/Microsoft.Bot.Connector/Authentication/EndorsementsRetriever.cs:69 | parsing succeeds exactly when the text parses to a JSON object, yields that object's properties, and otherwise raises `JsonReader` |
| `Json.Index` | libraries/Microsoft.Bot.Connector/Authentication/EndorsementsRetriever.cs:82 | `token[name]` answers only on an object: the property if present, null if absent. An array raises `InvalidArgument` and a primitive raises `InvalidOperation` |
| `Json.ConvertToString` | libraries/Microsoft.Bot.Connector/Authentication/EndorsementsRetriever.cs:82 | a token converts exactly when it is neither a container nor an integer outside the `long` range; those raise `InvalidCast`. JSON null gives null, a string gives itself, a boolean gives `True`/`False`, a `long` gives its decimal text and a floating-point number its invariant text |
| `Json.DecimalTextExample` | libraries/Microsoft.Bot.Connector/Authentication/EndorsementsRetriever.cs:82 | a `long` key id converts to its sign and decimal digits, as .NET prints it (`-120`, `7`) |
| `Json.DigitsRoundTrip` | libraries/Microsoft.Bot.Connector/Authentication/EndorsementsRetriever.cs:82 | the decimal digits produced for any natural number read back as that number |
| `Json.DecimalTextRoundTrip` | libraries/Microsoft.Bot.Connector/Authentication/EndorsementsRetriever.cs:82 | the text a `long` key id converts to reads back as the same integer, for every integer |
| `Json.DecimalTextCanonical` | libraries/Microsoft.Bot.Connector/Authentication/EndorsementsRetriever.cs:82 | that text starts with a minus sign exactly for a negative value and has no leading zero, as .NET prints a `long` |
| `Json.AsString` | libraries/Microsoft.Bot.Connector/Authentication/EndorsementsRetriever.cs:119 | `?.Value<string>()`: a missing token gives null, a present one is converted |
| `Json.AsArray` | libraries/Microsoft.Bot.Connector/Authentication/EndorsementsRetriever.cs:71-73 | `?.Value<JArray>()` gives null exactly for a missing token or JSON null. An array gives its items, and anything else raises `InvalidCast` |
| `Json.ConvertAll` | libraries/Microsoft.Bot.Connector/Authentication/EndorsementsRetriever.cs:92 | converting a list succeeds exactly when every element converts. The result has the same length and holds each element's conversion at its position, so order and duplicates are kept |
| `Json.Values` | libraries/Microsoft.Bot.Connector/Authentication/EndorsementsRetriever.cs:88-92 | `Values<string>()` converts an array's elements. An object succeeds only when empty, and a primitive raises `InvalidOperation` |
| `Http.Get` | libraries/Microsoft.Bot.Connector/Authentication/EndorsementsRetriever.cs:107-111 | a fetch succeeds exactly on a 2xx status, with the body unchanged. A client failure propagates unchanged, and any other status raises a status error with that code |
| `EndorsementsRetriever.KeyIdOf` | libraries/Microsoft.Bot.Connector/Authentication/EndorsementsRetriever.cs:82 | the key id of an object with `keyid` is that property's string conversion, and an object without `keyid` has none. An array record raises `InvalidArgument` and a primitive record raises `InvalidOperation` |
| `EndorsementsRetriever.AddRecord` | libraries/Microsoft.Bot.Connector/Authentication/EndorsementsRetriever.cs:82-94 | one loop step never changes or drops an existing entry and adds at most one key. The added key is one the record contributes, with both `keyid` and `endorsements`. A `keyid` failure propagates |
| `EndorsementsRetriever.BuildIndex` | libraries/Microsoft.Bot.Connector/Authentication/EndorsementsRetriever.cs:78-95 | the index has no more entries than there are records, and every key in it is contributed by some record |
| `EndorsementsRetriever.IndexDocument` | libraries/Microsoft.Bot.Connector/Authentication/EndorsementsRetriever.cs:69-97 | an unparsable document raises `JsonReader`. A missing or null `keys` gives the empty map, and any other non-array `keys` raises `InvalidCast`. A `keys` array gives the outcome of the loop over its records, in order |
| `EndorsementsRetriever.GetConfiguration` | libraries/Microsoft.Bot.Connector/Authentication/EndorsementsRetriever.cs:56-68 | a null address, then a null retriever, raises `ArgumentNull` before any retrieval. Otherwise exactly one retrieval happens, for the address. A retrieval error propagates unchanged, and a retrieved document is parsed and indexed |
| `EndorsementsRetriever.GetDocument` | libraries/Microsoft.Bot.Connector/Authentication/EndorsementsRetriever.cs:100-133 | a null address raises before any fetch. Otherwise one or two fetches happen, the first to the address. A failed discovery fetch propagates after one fetch. An unparsable discovery raises after one fetch. Empty discovery, or a missing or null `jwks_uri`, gives `""` after one fetch. A `jwks_uri` that cannot be converted to a string (a container, or an integer outside the `long` range) raises `InvalidCast` after one fetch. A named key set is fetched second at exactly that URL, and its outcome (body or error) is the result. A one-fetch success is always `""` |
| `EndorsementIndexSpec.AddRecordMeaning` | libraries/Microsoft.Bot.Connector/Authentication/EndorsementsRetriever.cs:82-94 | after a described prefix, a step succeeds exactly when its record does not raise, and then extends the description to one more record |
| `EndorsementIndexSpec.BuildIndexDescribes` | libraries/Microsoft.Bot.Connector/Authentication/EndorsementsRetriever.cs:78-95 | the index holds exactly the key ids some record contributes. Each maps to the endorsements of the first record with that `keyid` and an `endorsements` field |
| `EndorsementIndexSpec.BuildIndexSucceedsIff` | libraries/Microsoft.Bot.Connector/Authentication/EndorsementsRetriever.cs:80-93 | the loop raises exactly when some record raises. A record raises when its `keyid` is unreadable, or when it is a first contributor whose endorsements do not convert |
| `EndorsementIndexSpec.BuildIndexFailsWithFirst` | libraries/Microsoft.Bot.Connector/Authentication/EndorsementsRetriever.cs:80-95 | a failing loop raises the exception of the first raising record, unchanged |
| `EndorsementIndexSpec.IndexDocumentMeaning` | libraries/Microsoft.Bot.Connector/Authentication/EndorsementsRetriever.cs:69-97 | for a document from any retriever whose `keys` is an array, indexing succeeds exactly when no record raises, and then holds exactly the contributed key ids, each mapped to its first contributor's endorsements |
| `EndorsementIndexSpec.OversizedIntegerKeyIdRaises` | libraries/Microsoft.Bot.Connector/Authentication/EndorsementsRetriever.cs:82 | a record whose `keyid` is an integer beyond the `long` range makes the loop raise `InvalidCast` rather than index it |
| `EndorsementIndexSpec.KeyIdWithoutEndorsementsDoesNotBlock` | libraries/Microsoft.Bot.Connector/Authentication/EndorsementsRetriever.cs:84-93 | a record with a `keyid` and no `endorsements` does not stop a later record with the same `keyid` from adding its entry |
| `EndorsementIndexSpec.FirstContributorWins` | libraries/Microsoft.Bot.Connector/Authentication/EndorsementsRetriever.cs:84-92 | when two records contribute the same key id, the first decides the entry and the second is never converted |
| `RetrieverComposition.SecondFetchOnlyToNamedKeySet` | libraries/Microsoft.Bot.Connector/Authentication/EndorsementsRetriever.cs:114-128 | the fetches are exactly the address and then `url`, if and only if the discovery document is fetched, parses, and names `url` as its key set |
| `RetrieverComposition.MissingKeySetFailsConfiguration` | libraries/Microsoft.Bot.Connector/Authentication/EndorsementsRetriever.cs:68-124 | composed with `GetDocument`, a discovery document that is empty or whose `jwks_uri` is missing or null makes `GetConfiguration` raise `JsonReader`, because the empty text is not JSON |
| `RetrieverComposition.ConfigurationIndexesKeySet` | libraries/Microsoft.Bot.Connector/Authentication/EndorsementsRetriever.cs:68-95 | composed with `GetDocument`, a key set whose `keys` is an array gives an index exactly when no record raises. That index is the one the records describe |
| `RetrieverComposition.ExampleDocument` | libraries/Microsoft.Bot.Connector/Authentication/EndorsementsRetriever.cs:107-130 | for the worked provider, discovery leads to the key set URL, and the key set body is returned verbatim after two fetches |
| `RetrieverComposition.ExampleIndex` | libraries/Microsoft.Bot.Connector/Authentication/EndorsementsRetriever.cs:80-95 | for the worked key set, `k1` keeps both endorsements in order and `k2` (no endorsements) is absent |
| `RetrieverComposition.ExampleKeySetDocument` | libraries/Microsoft.Bot.Connector/Authentication/EndorsementsRetriever.cs:69-97 | the worked key set document parses and indexes to `{k1: [channelA, channelB]}` |
| `RetrieverComposition.EndToEndExample` | libraries/Microsoft.Bot.Connector/Authentication/EndorsementsRetriever.cs:56-97 | for the worked provider, the configuration is `{k1: [channelA, channelB]}` after a single retrieval |

## Left out

- The HTTP transport is a parameter. This covers `HttpClient`, cancellation tokens, timeouts and disposing the responses. A client failure is a single `Transport` outcome.
- The JSON text grammar is a parameter. This covers `JObject.Parse` internals, how a repeated property name is resolved, `undefined`, comments and lax syntax. The parser also decides how a floating-point number is rendered as text (`Float` carries the invariant-culture rendering of the parsed `double`). It also decides whether a date-like string has been re-rendered by Json.NET's date handling.
- `Http.Fetch` is a pure function of the URL. Two requests for the same URL get the same answer, so a `jwks_uri` equal to the address is fetched with the discovery document's response.
- A null `HttpClient` given to the constructor is not modelled. The constructor does not check for it, and the first fetch would then raise `NullReferenceException`.
- A document retriever that returns a C# null string is not modelled. `Retriever` always yields a string or an exception.
- The caching and refresh layer is not part of this model. That layer is `ConfigurationManager<T>` in Microsoft.IdentityModel.Protocols, with its staleness policy and single-flight behaviour. It lives outside this class and is about concurrency.
- The endorsement check itself ("key K endorses channel C") is not part of this model. Callers of `GetConfigurationAsync` perform it, outside this class.

=== FILE: EndorsementIndexSpec.dfy ===
/** A declarative account of the index `GetConfigurationAsync` builds from
    the records of a key set, independent of the loop that builds it, and
    the lemmas tying the two together. */
module EndorsementIndexSpec {
  import opened Wrappers
  import opened Exceptions
  import Json
  import opened EndorsementsRetriever

  /** Record `i` is the earliest record that names `keyId` and carries
      endorsements. Records naming `keyId` without endorsements do not
      count, so they cannot shadow a later one. */
  ghost predicate IsFirstContributor(records: seq<Json.Token>, i: int, keyId: string) {
    && 0 <= i < |records|
    && Contributes(records[i], keyId)
    && forall j :: 0 <= j < i ==> !Contributes(records[j], keyId)
  }

  /** Record `i` raises an exception while the loop visits it: its key id
      cannot be read, or it is the first contributor of its key id and its
      endorsements cannot be converted. */
  ghost predicate Raises(records: seq<Json.Token>, i: int)
    requires 0 <= i < |records|
  {
    var keyId := KeyIdOf(records[i]);
    || keyId.Failure?
    || (keyId.value.Some? && IsFirstContributor(records, i, keyId.value.value) && EndorsementsOf(records[i]).Failure?)
  }

  /** `index` is the index of `records`: exactly the key ids some record
      contributes, each mapped to the endorsements of its first contributor. */
  ghost predicate Describes(records: seq<Json.Token>, index: EndorsementIndex) {
    && (forall k :: k in index ==> exists i :: 0 <= i < |records| && Contributes(records[i], k))
    && (forall i, k :: 0 <= i < |records| && Contributes(records[i], k) ==> k in index)
    && (forall i, k :: IsFirstContributor(records, i, k) ==> EndorsementsOf(records[i]) == Success(index[k]))
  }

  /** The records of a prefix are judged the same way inside the longer
      sequence: first contributors and raising records depend only on what
      comes before them. */
  lemma PrefixAgrees(records: seq<Json.Token>, n: nat)
    requires n <= |records|
    ensures forall i, k :: 0 <= i < n ==> (IsFirstContributor(records[..n], i, k) <==> IsFirstContributor(records, i, k))
  {
  }

  lemma PrefixRaisesAgree(records: seq<Json.Token>, n: nat, i: nat)
    requires i < n <= |records|
    ensures Raises(records[..n], i) <==> Raises(records, i)
  {
  }

  /** A key in the index of a prefix stays put: a later record cannot be
      the first contributor of it. */
  lemma NotFirstAfterIndexed(records: seq<Json.Token>, n: nat, index: EndorsementIndex, k: string)
    requires n < |records|
    requires Describes(records[..n], index)
    requires k in index
    ensures !IsFirstContributor(records, n, k)
  {
  }

  /** Describing a prefix carries over to the whole sequence when the
      last record is no first contributor. */
  lemma DescribesUnchanged(records: seq<Json.Token>, n: nat, index: EndorsementIndex)
    requires n + 1 == |records|
    requires Describes(records[..n], index)
    requires forall k :: Contributes(records[n], k) ==> k in index
    ensures Describes(records, index)
  {
    PrefixAgrees(records, n);
    assert forall j :: 0 <= j < n ==> records[..n][j] == records[j];
    forall i, k | IsFirstContributor(records, i, k)
      ensures EndorsementsOf(records[i]) == Success(index[k])
    {
      if i == n {
        NotFirstAfterIndexed(records, n, index, k);
      }
    }
  }

  /** Describing a prefix, updated with the endorsements of a last record
      that contributes a new key id, describes the whole sequence. */
  lemma DescribesGrown(records: seq<Json.Token>, n: nat, index: EndorsementIndex, k0: string)
    requires n + 1 == |records|
    requires Describes(records[..n], index)
    requires Contributes(records[n], k0) && k0 !in index
    requires EndorsementsOf(records[n]).Success?
    ensures Describes(records, index[k0 := EndorsementsOf(records[n]).value])
  {
    var earlier := records[..n];
    var grown := index[k0 := EndorsementsOf(records[n]).value];
    forall k | k in grown
      ensures exists i :: 0 <= i < |records| && Contributes(records[i], k)
    {
      if k != k0 {
        var i :| 0 <= i < n && Contributes(earlier[i], k);
        assert earlier[i] == records[i];
      }
    }
    forall i, k | 0 <= i < |records| && Contributes(records[i], k)
      ensures k in grown
    {
      if i < n {
        assert earlier[i] == records[i];
      }
    }
    forall i, k | IsFirstContributor(records, i, k)
      ensures EndorsementsOf(records[i]) == Success(grown[k])
    {
      if i < n {
        assert earlier[i] == records[i];
        PrefixAgrees(records, n);
        assert IsFirstContributor(earlier, i, k);
      }
    }
  }

  /** Visiting record `n` after the records before it: the visit raises
      exactly when `Raises` says so, and otherwise extends the description
      of the prefix to a description of one more record. */
  lemma {:induction false} AddRecordMeaning(records: seq<Json.Token>, n: nat, index: EndorsementIndex)
    requires n + 1 == |records|
    requires Describes(records[..n], index)
    ensures AddRecord(index, records[n]).Success? <==> !Raises(records, n)
    ensures AddRecord(index, records[n]).Success? ==> Describes(records, AddRecord(index, records[n]).value)
  {
    var last := records[n];
    match KeyIdOf(last)
    case Failure(_) =>
    case Success(None) =>
      assert forall k :: !Contributes(last, k);
      DescribesUnchanged(records, n, index);
    case Success(Some(k0)) =>
      assert forall k :: Contributes(last, k) ==> k == k0;
      if k0 in index {
        NotFirstAfterIndexed(records, n, index, k0);
        DescribesUnchanged(records, n, index);
      } else if !HasEndorsements(last) {
        DescribesUnchanged(records, n, index);
      } else {
        assert forall j :: 0 <= j < n ==> records[..n][j] == records[j];
        assert IsFirstContributor(records, n, k0);
        if EndorsementsOf(last).Success? {
          DescribesGrown(records, n, index, k0);
        }
      }
  }

  /** Once no record of a prefix raises, the whole sequence is free of
      raising records exactly when its last record does not raise. */
  lemma ExtendNoRaises(records: seq<Json.Token>, n: nat)
    requires n + 1 == |records|
    requires forall i :: 0 <= i < n ==> !Raises(records[..n], i)
    ensures (forall i :: 0 <= i < |records| ==> !Raises(records, i)) <==> !Raises(records, n)
  {
    forall i | 0 <= i < n
      ensures !Raises(records, i)
    {
      PrefixRaisesAgree(records, n, i);
    }
  }

  /** What the loop returns, when it returns, is the index the records
      describe. */
  lemma {:induction false} BuildIndexDescribes(records: seq<Json.Token>)
    ensures BuildIndex(records).Success? ==> Describes(records, BuildIndex(records).value)
    decreases |records|
  {
    if |records| == 0 {
      return;
    }
    var n := |records| - 1;
    BuildIndexDescribes(records[..n]);
    if BuildIndex(records[..n]).Success? {
      AddRecordMeaning(records, n, BuildIndex(records[..n]).value);
    }
  }

  /** The loop raises an exception exactly when some record raises one. */
  lemma {:induction false} BuildIndexSucceedsIff(records: seq<Json.Token>)
    ensures BuildIndex(records).Success? <==> forall i :: 0 <= i < |records| ==> !Raises(records, i)
    decreases |records|
  {
    if |records| == 0 {
      return;
    }
    var n := |records| - 1;
    var earlier := records[..n];
    BuildIndexSucceedsIff(earlier);
    if BuildIndex(earlier).Failure? {
      var i :| 0 <= i < n && Raises(earlier, i);
      PrefixRaisesAgree(records, n, i);
      return;
    }
    SucceedsIffStep(records, n);
  }

  /** The inductive step of `BuildIndexSucceedsIff`, once the prefix has
      been indexed without raising. */
  lemma SucceedsIffStep(records: seq<Json.Token>, n: nat)
    requires n + 1 == |records|
    requires BuildIndex(records[..n]).Success?
    requires forall i :: 0 <= i < n ==> !Raises(records[..n], i)
    ensures BuildIndex(records).Success? <==> forall i :: 0 <= i < |records| ==> !Raises(records, i)
  {
    var index := BuildIndex(records[..n]).value;
    assert BuildIndex(records) == AddRecord(index, records[n]);
    BuildIndexDescribes(records[..n]);
    AddRecordMeaning(records, n, index);
    ExtendNoRaises(records, n);
  }

  /** The exception record `i` raises. */
  ghost function RaisedBy(records: seq<Json.Token>, i: int): Exception
    requires 0 <= i < |records| && Raises(records, i)
  {
    if KeyIdOf(records[i]).Failure? then KeyIdOf(records[i]).error
    else EndorsementsOf(records[i]).error
  }

  /** When the loop raises, it raises what the first raising record raises:
      exceptions propagate unchanged and later records are never visited. */
  lemma {:induction false} BuildIndexFailsWithFirst(records: seq<Json.Token>)
    ensures BuildIndex(records).Failure? ==>
      exists i :: 0 <= i < |records| && Raises(records, i) && BuildIndex(records).error == RaisedBy(records, i)
        && forall j :: 0 <= j < i ==> !Raises(records, j)
    decreases |records|
  {
    if |records| == 0 || BuildIndex(records).Success? {
      return;
    }
    var n := |records| - 1;
    var earlier := records[..n];
    BuildIndexFailsWithFirst(earlier);
    BuildIndexSucceedsIff(earlier);
    if BuildIndex(earlier).Failure? {
      var i :| 0 <= i < n && Raises(earlier, i) && BuildIndex(earlier).error == RaisedBy(earlier, i)
        && forall j :: 0 <= j < i ==> !Raises(earlier, j);
      PrefixRaisesAgree(records, n, i);
      assert earlier[i] == records[i];
      forall j | 0 <= j < i
        ensures !Raises(records, j)
      {
        PrefixRaisesAgree(records, n, j);
      }
      return;
    }
    var index := BuildIndex(earlier).value;
    BuildIndexDescribes(earlier);
    AddRecordMeaning(records, n, index);
    assert Raises(records, n);
    forall j | 0 <= j < n
      ensures !Raises(records, j)
    {
      PrefixRaisesAgree(records, n, j);
    }
  }

  /** A record that names a key id but carries no endorsements does not
      claim the key id: a later record with the same key id and with
      endorsements still gets its entry. */
  lemma KeyIdWithoutEndorsementsDoesNotBlock(first: Json.Token, second: Json.Token, keyId: string)
    requires KeyIdOf(first) == Success(Some(keyId)) && !HasEndorsements(first)
    requires Contributes(second, keyId) && EndorsementsOf(second).Success?
    ensures BuildIndex([first, second]) == Success(map[keyId := EndorsementsOf(second).value])
  {
    assert [first, second][..1] == [first];
    assert [first][..0] == [];
    assert BuildIndex([first]) == AddRecord(map[], first) == Success(map[]);
    assert BuildIndex([first, second]) == AddRecord(map[], second);
  }

  /** Of two records that both contribute the same key id, the first one
      decides the entry and the second one is not even converted. */
  lemma FirstContributorWins(first: Json.Token, second: Json.Token, keyId: string)
    requires Contributes(first, keyId) && EndorsementsOf(first).Success?
    requires Contributes(second, keyId)
    ensures BuildIndex([first, second]) == Success(map[keyId := EndorsementsOf(first).value])
  {
    assert [first, second][..1] == [first];
    assert [first][..0] == [];
    var index := map[keyId := EndorsementsOf(first).value];
    assert BuildIndex([first]) == AddRecord(map[], first) == Success(index);
    assert BuildIndex([first, second]) == AddRecord(index, second);
  }

  /** For a key set document from any retriever whose `keys` is an array:
      indexing succeeds exactly when no record raises, and then yields the
      first-contributor index of the records. */
  lemma IndexDocumentMeaning(document: string, parse: Json.Parser, root: map<string, Json.Token>)
    requires Json.ParseObject(parse, document) == Success(root)
    requires KeysProperty in root && root[KeysProperty].Array?
    ensures var records := root[KeysProperty].items;
      && (IndexDocument(document, parse).Success? <==> forall i :: 0 <= i < |records| ==> !Raises(records, i))
      && (IndexDocument(document, parse).Success? ==> Describes(records, IndexDocument(document, parse).value))
  {
    BuildIndexSucceedsIff(root[KeysProperty].items);
    BuildIndexDescribes(root[KeysProperty].items);
  }

  /** A `keyid` integer too large for a `long` is held as a `BigInteger`,
      which cannot be converted to a string: the record raises instead of
      being indexed under the number's text. */
  lemma OversizedIntegerKeyIdRaises(value: int, endorsements: Json.Token)
    requires !Json.IsInt64(value)
    ensures var record := Json.Object(map[KeyIdProperty := Json.Integer(value),
                                          EndorsementsProperty := endorsements]);
      BuildIndex([record]) == Failure(InvalidCast)
  {
  }
}

=== FILE: EndorsementsRetriever.dfy ===
/** The endorsements retriever of the Bot Connector: it follows an OpenID
    Connect discovery document to its JSON Web Key Set (`GetDocument`) and
    turns that key set into a map from key id to the key's endorsement
    strings (`GetConfiguration`). The HTTP client and the JSON text parser
    are parameters; every call returns its outcome together with the
    addresses it asked for, in order. */
module EndorsementsRetriever {
  import opened Wrappers
  import opened Exceptions
  import Json
  import Http

  /** The discovery document property naming the key set's URL. */
  const JsonWebKeySetUri: string := "jwks_uri"
  const KeysProperty: string := "keys"
  const KeyIdProperty: string := "keyid"
  const EndorsementsProperty: string := "endorsements"

  /** The endorsement strings of each key, by key id. An entry may be C#
      null when the key set lists a JSON null among a key's endorsements. */
  type EndorsementIndex = map<string, seq<Option<string>>>

  /** `IDocumentRetriever.GetDocumentAsync` for a non-null address. */
  type Retriever = string -> Result<string, Exception>

  /** An outcome and the addresses requested on the way to it. */
  datatype Traced<T> = Traced(result: Result<T, Exception>, requests: seq<string>)

  /** `key["keyid"]?.Value<string>()` for one record of the `keys` array. */
  function KeyIdOf(record: Json.Token): (r: Result<Option<string>, Exception>)
    ensures r.Success? && r.value.Some? ==> record.Object? && KeyIdProperty in record.properties
    ensures record.Array? ==> r == Failure(InvalidArgument)
    ensures !record.Object? && !record.Array? ==> r == Failure(InvalidOperation)
    ensures record.Object? && KeyIdProperty !in record.properties ==> r == Success(None)
    ensures record.Object? && KeyIdProperty in record.properties ==>
      r == Json.ConvertToString(record.properties[KeyIdProperty])
  {
    var token :- Json.Index(record, KeyIdProperty);
    Json.AsString(token)
  }

  /** The record carries an `endorsements` property, whatever its value. */
  predicate HasEndorsements(record: Json.Token) {
    record.Object? && EndorsementsProperty in record.properties
  }

  /** The record names `keyId` and carries endorsements: the only kind of
      record that can add an entry to the index. */
  predicate Contributes(record: Json.Token, keyId: string) {
    KeyIdOf(record) == Success(Some(keyId)) && HasEndorsements(record)
  }

  /** The record's endorsements, converted by `Values<string>()`, as the loop converts them. */
  function EndorsementsOf(record: Json.Token): (r: Result<seq<Option<string>>, Exception>)
    requires HasEndorsements(record)
  {
    Json.Values(record.properties[EndorsementsProperty])
  }

  /** One iteration of the loop over the `keys` array: a record without a
      key id, with a key id already in the index, or without endorsements
      leaves the index as it is; otherwise its endorsements are added under
      its key id. */
  function AddRecord(index: EndorsementIndex, record: Json.Token): (r: Result<EndorsementIndex, Exception>)
    ensures r.Success? ==> forall k :: k in index ==> k in r.value && r.value[k] == index[k]
    ensures r.Success? ==> forall k :: k in r.value && k !in index ==> Contributes(record, k)
    ensures r.Success? ==> |r.value| <= |index| + 1
    ensures KeyIdOf(record).Failure? ==> r == Failure(KeyIdOf(record).error)
  {
    var keyId :- KeyIdOf(record);
    if keyId.None? || keyId.value in index || !HasEndorsements(record) then Success(index)
    else
      var endorsements :- EndorsementsOf(record);
      Success(index[keyId.value := endorsements])
  }

  /** The loop of `GetConfigurationAsync` over the records of `keys`, in
      order; the first exception a record raises ends it. */
  function BuildIndex(records: seq<Json.Token>): (r: Result<EndorsementIndex, Exception>)
    ensures r.Success? ==> |r.value| <= |records|
    ensures r.Success? ==> forall k :: k in r.value ==> exists i :: 0 <= i < |records| && Contributes(records[i], k)
    decreases |records|
  {
    if |records| == 0 then Success(map[])
    else
      var earlier := records[..|records| - 1];
      var index :- BuildIndex(earlier);
      assert forall i :: 0 <= i < |earlier| ==> earlier[i] == records[i];
      AddRecord(index, records[|records| - 1])
  }

  /** The part of `GetConfigurationAsync` after retrieval: parse the key
      set document and index its `keys` array. */
  function IndexDocument(document: string, parse: Json.Parser): (r: Result<EndorsementIndex, Exception>)
    ensures Json.ParseObject(parse, document).Failure? ==> r == Failure(JsonReader)
    ensures Json.ParseObject(parse, document).Success? ==>
      var root := Json.ParseObject(parse, document).value;
      && (KeysProperty !in root || root[KeysProperty].Null? ==> r == Success(map[]))
      && (KeysProperty in root && !root[KeysProperty].Null? && !root[KeysProperty].Array? ==> r == Failure(InvalidCast))
      && (KeysProperty in root && root[KeysProperty].Array? ==> r == BuildIndex(root[KeysProperty].items))
  {
    var root :- Json.ParseObject(parse, document);
    var keys :- Json.AsArray(if KeysProperty in root then Some(root[KeysProperty]) else None);
    if keys.None? then Success(map[]) else BuildIndex(keys.value)
  }

  /** `GetConfigurationAsync`: check both arguments, retrieve the key set
      document once, then parse and index it. */
  function GetConfiguration(address: Option<string>, retriever: Option<Retriever>, parse: Json.Parser)
    : (t: Traced<EndorsementIndex>)
    ensures address.None? ==> t == Traced(Failure(ArgumentNull("address")), [])
    ensures address.Some? && retriever.None? ==> t == Traced(Failure(ArgumentNull("retriever")), [])
    ensures address.Some? && retriever.Some? ==> t.requests == [address.value]
    ensures address.Some? && retriever.Some? && retriever.value(address.value).Failure? ==>
      t.result == Failure(retriever.value(address.value).error)
    ensures address.Some? && retriever.Some? && retriever.value(address.value).Success? ==>
      t.result == IndexDocument(retriever.value(address.value).value, parse)
  {
    if address.None? then Traced(Failure(ArgumentNull("address")), [])
    else if retriever.None? then Traced(Failure(ArgumentNull("retriever")), [])
    else
      var result: Result<EndorsementIndex, Exception> := (
        var document :- retriever.value(address.value);
        IndexDocument(document, parse));
      Traced(result, [address.value])
  }

  /** The discovery document has properties and a `jwks_uri` that reads
      as a non-null string. */
  predicate NamesKeySet(discovery: map<string, Json.Token>) {
    && |discovery| > 0
    && JsonWebKeySetUri in discovery
    && Json.ConvertToString(discovery[JsonWebKeySetUri]).Success?
    && Json.ConvertToString(discovery[JsonWebKeySetUri]).value.Some?
  }

  /** The key set URL a discovery document names, read as `Value<string>()` reads it. */
  function KeySetUrl(discovery: map<string, Json.Token>): string
    requires NamesKeySet(discovery)
  {
    Json.ConvertToString(discovery[JsonWebKeySetUri]).value.value
  }

  /** `GetDocumentAsync`: check the address, fetch the discovery document,
      and when it names a key set URL, fetch that and return its body
      verbatim. A discovery document without properties, or without a key
      set URL, yields the empty string after the first fetch. */
  function GetDocument(address: Option<string>, fetch: Http.Fetch, parse: Json.Parser): (t: Traced<string>)
    ensures address.None? ==> t == Traced(Failure(ArgumentNull("address")), [])
    ensures address.Some? ==> 1 <= |t.requests| <= 2 && t.requests[0] == address.value
    ensures address.Some? && Http.Get(fetch, address.value).Failure? ==>
      t == Traced(Failure(Http.Get(fetch, address.value).error), [address.value])
    ensures address.Some? && Http.Get(fetch, address.value).Success? ==>
      var discovery := Json.ParseObject(parse, Http.Get(fetch, address.value).value);
      && (discovery.Failure? ==> t == Traced(Failure(JsonReader), [address.value]))
      && (discovery.Success? && |discovery.value| == 0 ==> t == Traced(Success(""), [address.value]))
      && (discovery.Success? && (JsonWebKeySetUri !in discovery.value || discovery.value[JsonWebKeySetUri].Null?) ==>
            t == Traced(Success(""), [address.value]))
      && (discovery.Success? && JsonWebKeySetUri in discovery.value
          && Json.ConvertToString(discovery.value[JsonWebKeySetUri]).Failure? ==>
            t == Traced(Failure(InvalidCast), [address.value]))
      && (discovery.Success? && NamesKeySet(discovery.value) ==>
            t.requests == [address.value, KeySetUrl(discovery.value)])
    ensures |t.requests| == 2 ==> t.result == Http.Get(fetch, t.requests[1])
    ensures |t.requests| == 1 && t.result.Success? ==> t.result.value == ""
  {
    if address.None? then Traced(Failure(ArgumentNull("address")), [])
    else
      match Http.Get(fetch, address.value)
      case Failure(e) => Traced(Failure(e), [address.value])
      case Success(json) =>
        match Json.ParseObject(parse, json)
        case Failure(e) => Traced(Failure(e), [address.value])
        case Success(discovery) =>
          if |discovery| == 0 then Traced(Success(""), [address.value])
          else
            match Json.AsString(if JsonWebKeySetUri in discovery then Some(discovery[JsonWebKeySetUri]) else None)
            case Failure(e) => Traced(Failure(e), [address.value])
            case Success(None) => Traced(Success(""), [address.value])
            case Success(Some(keysUrl)) => Traced(Http.Get(fetch, keysUrl), [address.value, keysUrl])
  }
}

=== FILE: Exceptions.dfy ===
/** The exceptions the endorsements retriever can raise or let through,
    one constructor per .NET exception class that can reach its caller. */
module Exceptions {

  datatype Exception =
    /** `ArgumentNullException`, carrying the name of the null parameter. */
    | ArgumentNull(paramName: string)
    /** `HttpRequestException` raised by `EnsureSuccessStatusCode` for a non-2xx status. */
    | HttpStatus(statusCode: int)
    /** A failure of the HTTP client itself: network, TLS, timeout or cancellation. */
    | Transport
    /** `JsonReaderException`: the text is not a JSON object. */
    | JsonReader
    /** `InvalidCastException` raised by Json.NET's `Value<T>` / `Values<T>` conversions. */
    | InvalidCast
    /** `InvalidOperationException`: child access on a JSON primitive value. */
    | InvalidOperation
    /** `ArgumentException`: a JSON array indexed by a property name. */
    | InvalidArgument
}

=== FILE: Http.dfy ===
/** The HTTP client seen as a pure function from URL to outcome, and the
    success check the retriever applies to every response. */
module Http {
  import opened Wrappers
  import opened Exceptions

  /** A completed response: its status code and its body read as a string. */
  datatype Response = Response(statusCode: int, content: string)

  /** `HttpClient.GetAsync` followed by reading the content: a response,
      or the exception the client raised (`Transport`). */
  type Fetch = string -> Result<Response, Exception>

  /** `HttpResponseMessage.IsSuccessStatusCode`: the 2xx range. */
  predicate IsSuccessStatusCode(statusCode: int) {
    200 <= statusCode <= 299
  }

  /** One GET of `url` followed by `EnsureSuccessStatusCode()`: the body of
      a 2xx response; otherwise the client's own failure, unchanged, or a
      status error naming the code. */
  function Get(fetch: Fetch, url: string): (r: Result<string, Exception>)
    ensures fetch(url).Failure? ==> r == Failure(fetch(url).error)
    ensures fetch(url).Success? ==>
      (r.Success? <==> IsSuccessStatusCode(fetch(url).value.statusCode))
    ensures r.Success? ==> r.value == fetch(url).value.content
    ensures fetch(url).Success? && r.Failure? ==> r.error == HttpStatus(fetch(url).value.statusCode)
  {
    var response :- fetch(url);
    if IsSuccessStatusCode(response.statusCode) then Success(response.content)
    else Failure(HttpStatus(response.statusCode))
  }
}

=== FILE: Json.dfy ===
/** An already-parsed JSON value, standing for Json.NET's `JToken` tree, and
    the handful of Json.NET operations the retriever applies to it: the
    property indexer, `Value<string>()`, `Value<JArray>()`, `Values<string>()`
    and `JObject.Parse`. The JSON text grammar itself is a parameter. */
module Json {
  import opened Wrappers
  import opened Exceptions

  /** A JSON token. An integer literal keeps its exact value: Json.NET
      stores it as a 64-bit `long` when it fits and as a `BigInteger`
      otherwise. `Float` carries the text .NET produces when it converts
      the parsed floating-point value to a string with the invariant
      culture. An object is a map because property lookup is by exact
      name; the parser decides what a repeated name means. */
  datatype Token =
    | Null
    | Bool(b: bool)
    | Integer(value: int)
    | Float(text: string)
    | String(s: string)
    | Array(items: seq<Token>)
    | Object(properties: map<string, Token>)

  /** The range of .NET's `long`, where Json.NET keeps a parsed integer. */
  const Int64Min: int := -0x8000_0000_0000_0000
  const Int64Max: int := 0x7FFF_FFFF_FFFF_FFFF

  predicate IsInt64(value: int) {
    Int64Min <= value <= Int64Max
  }

  /** The decimal digits of a natural number, most significant first. */
  function Digits(n: nat): (r: string)
    ensures |r| > 0
    ensures forall i :: 0 <= i < |r| ==> '0' <= r[i] <= '9'
    ensures n > 0 ==> r[0] != '0'
    decreases n
  {
    var digit := ['0' + (n % 10) as char];
    if n < 10 then digit else Digits(n / 10) + digit
  }

  /** `long.ToString(CultureInfo.InvariantCulture)`: an optional minus sign
      followed by the decimal digits. */
  function DecimalText(value: int): string {
    if value < 0 then "-" + Digits(-value) else Digits(value)
  }

  /** The number a string of decimal digits spells, most significant first. */
  function DigitsValue(s: string): nat
    requires forall i :: 0 <= i < |s| ==> '0' <= s[i] <= '9'
    decreases |s|
  {
    if |s| == 0 then 0
    else DigitsValue(s[..|s| - 1]) * 10 + (s[|s| - 1] - '0') as nat
  }

  /** Reading back the text of a number: an optional minus sign, then digits. */
  function ReadDecimal(text: string): Option<int> {
    if |text| > 0 && text[0] == '-' then
      var digits := text[1..];
      if |digits| > 0 && forall i :: 0 <= i < |digits| ==> '0' <= digits[i] <= '9'
      then Some(0 - DigitsValue(digits) as int) else None
    else if |text| > 0 && forall i :: 0 <= i < |text| ==> '0' <= text[i] <= '9'
    then Some(DigitsValue(text)) else None
  }

  /** The digits of `n` spell `n`. */
  lemma {:induction false} DigitsRoundTrip(n: nat)
    ensures DigitsValue(Digits(n)) == n
    decreases n
  {
    var digit := ['0' + (n % 10) as char];
    if n >= 10 {
      DigitsRoundTrip(n / 10);
      var s := Digits(n / 10) + digit;
      assert s[..|s| - 1] == Digits(n / 10);
    }
  }

  /** The text `DecimalText` gives reads back as the same number. */
  lemma DecimalTextRoundTrip(value: int)
    ensures ReadDecimal(DecimalText(value)) == Some(value)
  {
    if value < 0 {
      var digits := Digits(-value);
      DigitsRoundTrip(-value);
      assert DecimalText(value) == "-" + digits;
      assert ("-" + digits)[0] == '-';
      assert ("-" + digits)[1..] == digits;
    } else {
      DigitsRoundTrip(value);
      assert DecimalText(value) == Digits(value);
    }
  }

  /** That text is the canonical one: a minus sign exactly when negative,
      and no leading zero. */
  lemma DecimalTextCanonical(value: int)
    ensures (DecimalText(value)[0] == '-') <==> value < 0
    ensures value != 0 ==> DecimalText(value)[if value < 0 then 1 else 0] != '0'
  {
  }

  /** A JSON text parser: `None` when the text is not a JSON text at all. */
  type Parser = string -> Option<Token>

  /** `JObject.Parse`: the text must parse, and to an object. */
  function ParseObject(parse: Parser, text: string): (r: Result<map<string, Token>, Exception>)
    ensures r.Success? <==> parse(text).Some? && parse(text).value.Object?
    ensures r.Success? ==> parse(text) == Some(Object(r.value))
    ensures r.Failure? ==> r.error == JsonReader
  {
    match parse(text)
    case Some(Object(properties)) => Success(properties)
    case _ => Failure(JsonReader)
  }

  /** The indexer `token[name]`: an object answers with the named property,
      or `None` (C# null) when it has none; an array rejects a string index
      and a primitive value has no children to index. */
  function Index(token: Token, name: string): (r: Result<Option<Token>, Exception>)
    ensures r.Success? <==> token.Object?
    ensures r.Success? ==> (r.value.Some? <==> name in token.properties)
    ensures r.Success? && r.value.Some? ==> r.value.value == token.properties[name]
    ensures token.Array? ==> r == Failure(InvalidArgument)
    ensures !token.Object? && !token.Array? ==> r == Failure(InvalidOperation)
  {
    match token
    case Object(properties) => if name in properties then Success(Some(properties[name])) else Success(None)
    case Array(_) => Failure(InvalidArgument)
    case _ => Failure(InvalidOperation)
  }

  /** A `long` renders as a sign and its digits, as .NET prints it. */
  lemma DecimalTextExample()
    ensures DecimalText(-120) == "-120" && DecimalText(7) == "7"
  {
  }

  /** Json.NET's conversion of one token to `string`: a string is itself,
      a boolean or a `long` or floating-point number becomes its invariant
      text, JSON null becomes C# null. A container cannot be cast, and
      neither can a `BigInteger`, which is not `IConvertible`. */
  function ConvertToString(token: Token): (r: Result<Option<string>, Exception>)
    ensures r.Success? <==> !token.Array? && !token.Object? && !(token.Integer? && !IsInt64(token.value))
    ensures r.Failure? ==> r.error == InvalidCast
    ensures r == Success(None) <==> token.Null?
    ensures token.String? ==> r == Success(Some(token.s))
    ensures token.Bool? ==> r == Success(Some(if token.b then "True" else "False"))
    ensures token.Integer? && IsInt64(token.value) ==> r == Success(Some(DecimalText(token.value)))
    ensures token.Float? ==> r == Success(Some(token.text))
  {
    match token
    case Null => Success(None)
    case Bool(b) => Success(Some(if b then "True" else "False"))
    case Integer(value) => if IsInt64(value) then Success(Some(DecimalText(value))) else Failure(InvalidCast)
    case Float(text) => Success(Some(text))
    case String(s) => Success(Some(s))
    case _ => Failure(InvalidCast)
  }

  /** `token?.Value<string>()`: a missing token gives C# null. */
  function AsString(token: Option<Token>): (r: Result<Option<string>, Exception>)
    ensures token.None? ==> r == Success(None)
    ensures token.Some? ==> r == ConvertToString(token.value)
  {
    match token
    case None => Success(None)
    case Some(t) => ConvertToString(t)
  }

  /** `token?.Value<JArray>()`: an array is itself; a missing token or JSON
      null gives C# null; any other token cannot be cast to an array. */
  function AsArray(token: Option<Token>): (r: Result<Option<seq<Token>>, Exception>)
    ensures r == Success(None) <==> token.None? || token.value.Null?
    ensures r.Success? && r.value.Some? <==> token.Some? && token.value.Array?
    ensures r.Success? && r.value.Some? ==> r.value.value == token.value.items
    ensures r.Failure? ==> r.error == InvalidCast
  {
    match token
    case None => Success(None)
    case Some(Null) => Success(None)
    case Some(Array(items)) => Success(Some(items))
    case Some(_) => Failure(InvalidCast)
  }

  /** Every element of `items` converted to `string`, in order; the first
      element that cannot be converted ends the conversion. */
  function ConvertAll(items: seq<Token>): (r: Result<seq<Option<string>>, Exception>)
    ensures r.Success? <==> forall i :: 0 <= i < |items| ==> ConvertToString(items[i]).Success?
    ensures r.Success? ==> |r.value| == |items|
    ensures r.Success? ==> forall i :: 0 <= i < |items| ==> ConvertToString(items[i]) == Success(r.value[i])
    ensures r.Failure? ==> r.error == InvalidCast
  {
    if |items| == 0 then Success([])
    else
      var head :- ConvertToString(items[0]);
      var tail :- ConvertAll(items[1..]);
      Success([head] + tail)
  }

  /** `token.Values<string>().ToArray()`: the children of a container,
      converted to strings. The children of an object are its properties,
      which never convert, so only an empty object succeeds; a primitive
      value has no children to enumerate. */
  function Values(token: Token): (r: Result<seq<Option<string>>, Exception>)
    ensures token.Array? ==> r == ConvertAll(token.items)
    ensures token.Object? ==> (r.Success? <==> |token.properties| == 0)
    ensures token.Object? && r.Success? ==> r.value == []
    ensures token.Object? && r.Failure? ==> r.error == InvalidCast
    ensures !token.Array? && !token.Object? ==> r == Failure(InvalidOperation)
  {
    match token
    case Array(items) => ConvertAll(items)
    case Object(properties) => if |properties| == 0 then Success([]) else Failure(InvalidCast)
    case _ => Failure(InvalidOperation)
  }
}

=== FILE: RetrieverComposition.dfy ===
/** The two operations of the retriever composed the way they are meant to
    be used: the document `GetDocument` returns is the document
    `GetConfiguration` parses and indexes. */
module RetrieverComposition {
  import opened Wrappers
  import opened Exceptions
  import Json
  import Http
  import opened EndorsementsRetriever
  import opened EndorsementIndexSpec

  /** This class's `GetDocumentAsync`, seen as a document retriever. */
  function DocumentRetriever(fetch: Http.Fetch, parse: Json.Parser): Retriever {
    address => GetDocument(Some(address), fetch, parse).result
  }

  /** The discovery document at `address` is fetched and parses to `discovery`. */
  ghost predicate Discovered(fetch: Http.Fetch, parse: Json.Parser, address: string, discovery: map<string, Json.Token>) {
    && Http.Get(fetch, address).Success?
    && Json.ParseObject(parse, Http.Get(fetch, address).value) == Success(discovery)
  }

  /** Exactly two fetches happen, the second one to exactly the URL the
      discovery document names, precisely when the discovery document is
      fetched, parses, and names a key set. */
  lemma SecondFetchOnlyToNamedKeySet(fetch: Http.Fetch, parse: Json.Parser, address: string, url: string)
    ensures GetDocument(Some(address), fetch, parse).requests == [address, url] <==>
      exists discovery :: Discovered(fetch, parse, address, discovery) && NamesKeySet(discovery) && KeySetUrl(discovery) == url
  {
    var t := GetDocument(Some(address), fetch, parse);
    if t.requests == [address, url] {
      var discovery := Json.ParseObject(parse, Http.Get(fetch, address).value).value;
      assert Discovered(fetch, parse, address, discovery);
    }
  }

  /** When the discovery document is empty, or its `jwks_uri` is missing or
      null, `GetDocument` returns the empty string. That is not a JSON text,
      so `GetConfiguration` rejects it as unparsable instead of producing an
      empty index. */
  lemma MissingKeySetFailsConfiguration(fetch: Http.Fetch, parse: Json.Parser, address: string, discovery: map<string, Json.Token>)
    requires parse("") == None
    requires Discovered(fetch, parse, address, discovery)
    requires !NamesKeySet(discovery)
    requires JsonWebKeySetUri !in discovery || Json.ConvertToString(discovery[JsonWebKeySetUri]).Success?
    ensures GetConfiguration(Some(address), Some(DocumentRetriever(fetch, parse)), parse)
      == Traced(Failure(JsonReader), [address])
  {
    assert DocumentRetriever(fetch, parse)(address) == Success("");
  }

  /** When discovery leads to a key set whose `keys` is an array, the
      configuration is the index of those records: it exists exactly when
      no record raises, and then maps each contributed key id to the
      endorsements of its first contributor. */
  lemma ConfigurationIndexesKeySet(
    fetch: Http.Fetch, parse: Json.Parser, address: string,
    discovery: map<string, Json.Token>, keySet: map<string, Json.Token>)
    requires Discovered(fetch, parse, address, discovery)
    requires NamesKeySet(discovery)
    requires Discovered(fetch, parse, KeySetUrl(discovery), keySet)
    requires KeysProperty in keySet && keySet[KeysProperty].Array?
    ensures var t := GetConfiguration(Some(address), Some(DocumentRetriever(fetch, parse)), parse);
      var records := keySet[KeysProperty].items;
      && t.requests == [address]
      && (t.result.Success? <==> forall i :: 0 <= i < |records| ==> !Raises(records, i))
      && (t.result.Success? ==> Describes(records, t.result.value))
  {
    var records := keySet[KeysProperty].items;
    assert DocumentRetriever(fetch, parse)(address) == Http.Get(fetch, KeySetUrl(discovery));
    BuildIndexSucceedsIff(records);
    BuildIndexDescribes(records);
  }

  // A provider whose key set lists `k1` with two endorsements and `k2`
  // without any, with a parser that knows just the two documents.

  const ExampleAddress: string := "https://p/.well-known/openidconfiguration"
  const ExampleKeySetUrl: string := "https://p/keys"
  const ExampleDiscoveryText: string := "{\"jwks_uri\":\"https://p/keys\"}"
  const ExampleKeySetText: string :=
    "{\"keys\":[{\"keyid\":\"k1\",\"endorsements\":[\"channelA\",\"channelB\"]},{\"keyid\":\"k2\"}]}"
  const ExampleK1: Json.Token := Json.Object(map[
    "keyid" := Json.String("k1"),
    "endorsements" := Json.Array([Json.String("channelA"), Json.String("channelB")])])
  const ExampleK2: Json.Token := Json.Object(map["keyid" := Json.String("k2")])

  function ExampleParse(text: string): Option<Json.Token> {
    if text == ExampleDiscoveryText then Some(Json.Object(map["jwks_uri" := Json.String(ExampleKeySetUrl)]))
    else if text == ExampleKeySetText then Some(Json.Object(map["keys" := Json.Array([ExampleK1, ExampleK2])]))
    else None
  }

  function ExampleFetch(url: string): Result<Http.Response, Exception> {
    if url == ExampleAddress then Success(Http.Response(200, ExampleDiscoveryText))
    else if url == ExampleKeySetUrl then Success(Http.Response(200, ExampleKeySetText))
    else Success(Http.Response(404, ""))
  }

  /** Discovery leads to the key set, whose body comes back verbatim. */
  lemma ExampleDocument()
    ensures GetDocument(Some(ExampleAddress), ExampleFetch, ExampleParse)
      == Traced(Success(ExampleKeySetText), [ExampleAddress, ExampleKeySetUrl])
  {
    assert ExampleDiscoveryText != ExampleKeySetText by {
      assert |ExampleDiscoveryText| != |ExampleKeySetText|;
    }
    assert ExampleAddress != ExampleKeySetUrl by {
      assert |ExampleAddress| != |ExampleKeySetUrl|;
    }
  }

  /** `k2` has no endorsements and is left out; `k1` keeps both of its own, in order. */
  lemma ExampleIndex()
    ensures BuildIndex([ExampleK1, ExampleK2]) == Success(map["k1" := [Some("channelA"), Some("channelB")]])
  {
    var endorsements := [Some("channelA"), Some("channelB")];
    var items := [Json.String("channelA"), Json.String("channelB")];
    var converted := Json.ConvertAll(items);
    assert Json.ConvertToString(items[0]).Success? && Json.ConvertToString(items[1]).Success?;
    assert converted.value[0] == endorsements[0] && converted.value[1] == endorsements[1];
    assert |converted.value| == |endorsements|;
    assert converted.value == endorsements;
    assert [ExampleK1, ExampleK2][..1] == [ExampleK1];
    assert [ExampleK1][..0] == [];
    assert BuildIndex([ExampleK1]) == AddRecord(map[], ExampleK1) == Success(map["k1" := endorsements]);
    assert BuildIndex([ExampleK1, ExampleK2]) == AddRecord(map["k1" := endorsements], ExampleK2);
  }

  /** The worked key set document indexes to `k1` alone. */
  lemma ExampleKeySetDocument()
    ensures IndexDocument(ExampleKeySetText, ExampleParse) == Success(map["k1" := [Some("channelA"), Some("channelB")]])
  {
    var root := map["keys" := Json.Array([ExampleK1, ExampleK2])];
    assert ExampleParse(ExampleKeySetText) == Some(Json.Object(root)) by {
      assert |ExampleDiscoveryText| != |ExampleKeySetText|;
    }
    assert Json.AsArray(Some(root["keys"])) == Success(Some([ExampleK1, ExampleK2]));
    ExampleIndex();
  }

  /** End to end: the configuration holds `k1` alone, after one retrieval. */
  lemma EndToEndExample()
    ensures GetConfiguration(Some(ExampleAddress), Some(DocumentRetriever(ExampleFetch, ExampleParse)), ExampleParse)
      == Traced(Success(map["k1" := [Some("channelA"), Some("channelB")]]), [ExampleAddress])
  {
    ExampleDocument();
    assert DocumentRetriever(ExampleFetch, ExampleParse)(ExampleAddress) == Success(ExampleKeySetText);
    ExampleKeySetDocument();
  }
}

=== FILE: Wrappers.dfy ===
/** Option and Result, the failure-compatible wrappers used throughout the model.
    Result stands in for the .NET exceptions the retriever can raise: a
    `Failure` is a thrown exception that propagates to the caller. */
module Wrappers {

  /** A value that may be absent; `None` models a C# `null`. */
  datatype Option<+T> = None | Some(value: T)

  /** Either a computed value or the exception that ended the computation. */
  datatype Result<+R, +E> = Success(value: R) | Failure(error: E) {

    predicate IsFailure() {
      Failure?
    }

    function PropagateFailure<U>(): Result<U, E>
      requires Failure?
    {
      Failure(error)
    }

    function Extract(): R
      requires Success?
    {
      value
    }
  }
}
